=== FILE: README.md ===
# hasuragres ingest service, modelled in Dafny

The service receives batches of scraped records on `POST /insert`. Each request
carries a table definition: a name, a creation statement (`sql_up`), a teardown
statement (`sql_down`) and the list of columns to fill. It also carries the rows.
The service does four things:

1. It keeps a `Tables` registry with one `(up, down)` row per lower-cased table
   name.
2. It creates, recreates or leaves alone the destination table. Change is
   detected by exact string equality of the stored `up` with the new `sql_up`.
3. It replaces the table's contents with the batch: `TRUNCATE … CASCADE`, then
   one parameterised INSERT per row. All of this runs in one transaction with
   the DDL.
4. After the commit, and only when `create_table` returned true, it sends four
   requests to the query layer's metadata API: track the table, grant select to
   `anonymous`, ask for foreign-key relationship suggestions, and create the
   suggested relationships in one `bulk` request.

The model has these modules:

- `Text`: ASCII `str.lower`, `str.join`, and character counting.
- `Naming`: `plural` and `singular`.
- `Store`: the cursor's commands and the store's replies.
- `Registry`: the registry and the migration decision.
- `MetadataApi`: the metadata requests.
- `Relationships`: `infer_relationships`.
- `BatchWriter`: row projection and statement text.
- `Handler`: one `/insert` request, as a pure function from inputs to the
  events it produces, the response and the new registry.
- `Server`: the imperative program. The `Metadata` and `Service` classes hold
  the in-transaction registry, the committed registry and the event trace.
  Their methods are proved to do exactly what `Handler` specifies.

The store's answer to each command is an input (`store: Command -> Reply`).
The reply to the relationship-suggestion request is an input (a sequence of
`Suggestion`s).

### Behaviour notes

- `create_table` returns true when it recreates a changed table as well as
  when it creates a new one (app.py:71-80). The handler then sends the track,
  permission, suggestion and bulk requests again for the recreated table
  (`Handler.ChangedRequestTearsDownWithPreviousDown`).
- The write replaces the table's contents: `TRUNCATE … CASCADE` followed by
  the INSERT run once per row (app.py:167-174).
- `singular` strips one trailing "s", so `plural(singular("address"))` is
  `"addres"`: pluralising a singular name gives it back only when the stem
  does not itself end in "s" (`Naming.PluralOfSingular`,
  `Naming.PluralOfSingularCounterexample`).
- Replies to the track, permission and bulk requests are ignored. Whenever
  the four requests are sent (only after `create_table` returned true), they
  go in the same order (app.py:183-213).

## Model

| member | source | states |
|---|---|---|
| `Text.Lower` | app.py:59 | the lower-cased name has the same length, folds each ASCII capital to its small letter and keeps every other character |
| `Text.LowerIdempotent` | app.py:190-212 | lowering an already lowered name changes nothing, so the metadata requests name the same table as the registry key |
| `Naming.Plural` | app.py:98-99 | `plural(s)` ends in "s", extends `s` by at most one character, and is `s` itself when `s` already ends in "s" |
| `Naming.PluralIsShortest` | app.py:98-99 | no extension of `s` that ends in "s" is shorter than `plural(s)` |
| `Naming.PluralIdempotent` | app.py:98-99 | `plural(plural(s)) == plural(s)` |
| `Naming.Singular` | app.py:102-103 | `singular(s)` is a prefix of `s`, one character shorter exactly when `s` ends in "s" and otherwise equal to it |
| `Naming.SingularIdentityWithoutS` | app.py:102-103 | `singular(s) == s` when `s` does not end in "s" |
| `Naming.SingularOfPlural` | app.py:98-103 | `singular(plural(s)) == s` for every `s` not ending in "s" |
| `Naming.PluralOfSingular` | app.py:98-103 | `plural(singular(s)) == s` for `s` ending in "s" whose stem does not |
| `Naming.PluralOfSingularCounterexample` | app.py:98-103 | "address" ends in "s" but `plural(singular("address")) == "addres"` |
| `Naming.PluralSingularPlural` | app.py:98-103 | `plural(singular(plural(s))) == plural(s)` for `s` not ending in "s" |
| `Store.FirstFailure` | app.py:62-80 | the index of the first statement the store rejects: all earlier ones were accepted, and it is the count of statements when none is rejected |
| `Registry.Decide` | app.py:58-82 | create exactly when the name is absent, unchanged exactly when the stored `up` equals the new one, and otherwise recreate with the stored `down` |
| `Registry.Ddl` | app.py:62-80 | no DDL for an unchanged table; otherwise the statements end with the new `up` |
| `Registry.Migrated` | app.py:62-82 | after a migration the name maps to the new `up`, every other row is unchanged, an unchanged table keeps its row, and a changed or new table gets `(up, down)` |
| `Registry.RepeatIsUnchanged` | app.py:71-82 | a second request with the same `up` is decided unchanged and changes no row, whatever its `down` |
| `Registry.RecreateUsesPreviousDown` | app.py:71-80 | after a request that created or recreated the table, a request with a different `up` tears down with the first request's `down` and then runs its own `up` |
| `Registry.UnchangedKeepsStoredDown` | app.py:71-82 | an unchanged `up` keeps the stored `down` even when the request brings another |
| `Registry.MigratedKeepsCanonicalKeys` | app.py:59-68 | registering a lower-cased name keeps every registry key in lower case |
| `Relationships.QueryFor` | app.py:125-151 | a suggestion yields a request exactly when its type is object or array; the request creates a relationship on the origin table with source "default"; an object relationship is named `singular(to.table)` and keyed on the origin's columns, an array relationship is named `plural(to.table)` and keyed on the target table and its columns |
| `Relationships.RelationshipQueries` | app.py:123-153 | the requests number at most the suggestions, and each creates a relationship with source "default" |
| `Relationships.QueriesFollowSuggestions` | app.py:123-153 | one request per object or array suggestion, in reply order: the i-th request is the one the i-th such suggestion yields |
| `Relationships.OtherKindsDropped` | app.py:124-151 | a reply with no object or array suggestion yields no request |
| `Relationships.RelationshipQueriesAppend` | app.py:123-153 | the requests for a concatenated reply are those of the parts, in order |
| `Relationships.CollectQueries` | app.py:123-153 | the loop that appends one request per suggestion returns exactly `RelationshipQueries` of the reply |
| `BatchWriter.ProjectRow` | app.py:171 | a row projects exactly when it has every declared column; the tuple holds the row's values in column order; otherwise the error is the KeyError of the first missing column |
| `BatchWriter.ProjectRows` | app.py:171 | all rows project exactly when each does; one tuple per row, in payload order; otherwise the error is that of the first row that fails |
| `BatchWriter.KeyErrorNamesColumn` | app.py:171-178 | the error text returned for a row missing a column (`str(KeyError)`, `BatchWriter.KeyErrorText`, which has no ensures of its own) is the column name between single quotes |
| `BatchWriter.Quote` | app.py:172 | a quoted column is the name between double quotes, so the name can be read back |
| `BatchWriter.QuoteAll` | app.py:172 | one quoted name per column, in column order, each wrapped in double quotes |
| `BatchWriter.QuotedColumnsCount` | app.py:172-173 | the column list holds exactly two double quotes per column when no name contains one |
| `BatchWriter.TruncateCommand` | app.py:167 | the statement is "TRUNCATE ", the table name, then " CASCADE"; the table name can be read back from it |
| `BatchWriter.Placeholders` | app.py:173 | the placeholder list for `n` columns holds exactly `n` '%' characters |
| `BatchWriter.PercentPerPlaceholder` | app.py:173 | joining `%s` placeholders with ", " gives one '%' per placeholder |
| `BatchWriter.InsertCommand` | app.py:173 | the '%' characters of the INSERT text are those of the table name, those of the column list, and one placeholder per column |
| `BatchWriter.InsertCommandLayout` | app.py:173 | the INSERT text is "INSERT INTO ", the table name, '(', the quoted columns joined by ", ", then ") VALUES (", the placeholder list and ')'; the table name and the column list can be read back from their places |
| `BatchWriter.InsertPlaceholderCount` | app.py:173 | the INSERT statement holds exactly one placeholder per column: with no '%' in the table or column names it has `len(columns)` '%' characters |
| `Handler.Migrate` | app.py:48-82 | when `create_table` succeeds the registry is the migrated one and the result is true exactly when DDL ran; when it fails the registry is unchanged and a command was run |
| `Handler.MigrateAbsent` | app.py:62-70 | an absent name runs exactly `[sql_up]`; if accepted the row `(sql_up, sql_down)` is added and the result is true, otherwise the store's error is raised and nothing is registered |
| `Handler.MigrateChanged` | app.py:71-80 | a changed `up` runs the stored `down` and then the new `up`, stopping at a rejection; if both are accepted both fields are replaced and the result is true |
| `Handler.MigrateUnchanged` | app.py:71-82 | an equal `up` runs nothing, leaves the registry unchanged and returns false |
| `Handler.MigrateStopsAtFailure` | app.py:62-80 | a failed `create_table` ran every statement up to the rejected one, which is the last run, and raises its message |
| `Handler.WriteBatch` | app.py:165-178 | the write starts with the truncate and runs at most the truncate and the INSERT; it succeeds exactly when the store accepts the truncate, every row has every column and the store accepts the INSERT over the projected rows; otherwise the error is the store's message for the rejected truncate or INSERT, or the KeyError of the projection |
| `Handler.WriteInsertsRowsInColumnOrder` | app.py:166-174 | a successful write truncates, then runs the INSERT text over one tuple per payload row, in payload order, each holding that row's values in column order |
| `Handler.MissingColumnFailsWrite` | app.py:171-178 | a row missing a declared column makes the write fail after the truncate and before any INSERT |
| `Handler.Sync` | app.py:183-213 | the post-commit steps are metadata requests only, and the requests sent are exactly track, select permission for "anonymous", suggest and bulk, in that order |
| `Handler.SyncQueries` | app.py:185-213 | four requests, of types `pg_track_table` (source "default", schema "public", the table), `pg_create_select_permission` (source "default", the table, role "anonymous"), `pg_suggest_relationships` (the table alone) and `bulk` (the inferred relationship requests), in that order |
| `Handler.Transaction` | app.py:158-180 | the transaction succeeds exactly when `create_table` and the write both succeed; a failed `create_table` is followed at once by a rollback and its error is the response; otherwise the DDL and the write's commands are followed by a commit, or by a rollback with the write's error as the response; on failure the registry is kept and no table counts as created |
| `Handler.TransactionEvents` | app.py:158-180 | every event of the transaction but the last is a command; the last is a commit exactly on success and a rollback otherwise; nothing is sent to the metadata API; no command follows a rejected one; the table counts as created exactly when the transaction commits and `create_table` did DDL |
| `Handler.Handle` | app.py:156-215 | every request produces at least one event, and a failed request leaves the registry as it was |
| `Handler.FailedStepFailsRequest` | app.py:158-178 | a rejected DDL statement, a rejected truncate, a row missing a column and a rejected INSERT each make the response that step's error, with the rollback right after the failing command and nothing run after it |
| `Handler.SuccessfulRequestWrites` | app.py:158-215 | a request succeeds exactly when `create_table` succeeds, the truncate is accepted, every row has every column and the INSERT is accepted; a successful request runs the DDL, the truncate and the INSERT over the projected rows, commits, and then sends the metadata requests exactly when the table was created or recreated |
| `Handler.MissingColumnFailsRequest` | app.py:171-178 | a payload row lacking a declared column makes the request fail: error response, rollback last, no commit, no metadata request, registry kept |
| `Handler.FailureRollsBack` | app.py:158-178 | a failed request ends with a rollback, never commits, sends no metadata request and keeps the registry |
| `Handler.CommitPrecedesMetadataRequests` | app.py:180-213 | a successful request commits exactly once, never rolls back, and every metadata request comes after the commit |
| `Handler.MetadataRequestsIffCreated` | app.py:183-213 | the metadata requests sent are, in order, track, select permission for "anonymous", suggest and bulk; they are sent exactly when the request succeeds and the table was created or recreated, and otherwise none is sent |
| `Handler.SuccessRecordsUp` | app.py:58-80 | after a successful request the registry maps the lower-cased name to the request's `up`, and every other row is unchanged |
| `Handler.StopsAtFirstFailure` | app.py:158-178 | no command is run after one the store rejected, and in a successful request every command was accepted |
| `Handler.FirstEvent` | app.py:158-168 | a request's first event is its first DDL statement, or the truncate when `create_table` runs no DDL |
| `Handler.RepeatRequestIsQuiet` | app.py:71-82 | repeating a successful request with the same name and `up`, whatever the store answers the second time, begins with the truncate (no DDL) and sends no metadata request |
| `Handler.ChangedRequestTearsDownWithPreviousDown` | app.py:71-80 | after a request that created the table, a request with a new `up` starts by running the earlier request's `down`; if it succeeds it sends track, permission, suggest and bulk for the table again, in that order |
| `Server.Metadata.constructor` | app.py:13-17 | the request body holds the given name, statements and columns |
| `Server.Service.RunCommand` | app.py:60-74 | a cursor command is appended to the trace and answered by the store |
| `Server.Service.CommitTransaction` | app.py:180 | commit makes the open transaction's registry the committed one |
| `Server.Service.RollbackTransaction` | app.py:175-178 | rollback restores the committed registry |
| `Server.Service.SendQuery` | app.py:85-92 | a metadata request is appended to the trace |
| `Server.Service.CreateTable` | app.py:48-82 | lower-cases `metadata.table_name` in place; the trace, result and registry are those of `Migrate`; on success the name maps to `sql_up`; other rows are unchanged; a registry whose keys are lower-case keeps them so |
| `Server.Service.InferRelationships` | app.py:106-153 | sends the suggestion request for the table and returns `RelationshipQueries` of the reply |
| `Server.Service.LoadRows` | app.py:165-178 | the trace and error are those of `WriteBatch`; `metadata.columns` holds the quoted names exactly when the truncate was accepted and every row had every column (so also after a rejected INSERT), and is unchanged otherwise |
| `Server.Service.Transact` | app.py:158-180 | the trace, response, registry and created flag are those of `Transaction`; the service has no uncommitted change before and after; `metadata.table_name` is lower-cased in place; `metadata.columns` holds the quoted names exactly when `create_table` succeeded, the truncate was accepted and every row had every column, and is unchanged otherwise |
| `Server.Service.SyncMetadata` | app.py:183-213 | appends the four metadata requests for the lower-cased name |
| `Server.Service.Insert` | app.py:156-215 | the trace, response and registry are those of `Handle`; the service starts and ends with no uncommitted change; a registry whose keys are lower-case keeps them so; `metadata.columns` is unchanged when `create_table` fails, a truncate is rejected or a row lacks a column, and holds the quoted names otherwise |

## Left out

- Connection bootstrap, environment loading and process exit (app.py:20-45) are configuration and I/O.
- The FastAPI app, the CORS middleware, the route decorator and the uvicorn start-up (app.py:30-37, app.py:156, app.py:218-220) are framework wiring.
- The store's answer depends only on the command: within one request, the same statement text run twice gets the same answer. A store that accepts a statement once and then rejects the identical text is not modelled. An example is a request whose new `up` equals the stored `down`, where app.py:73-74 runs that text twice.
- What the SQL statements do to the database, including TRUNCATE … CASCADE, is not modelled. Statements are opaque strings. Whether the store accepts each one is an input.
- The registry's own SELECT, INSERT and UPDATE statements (app.py:58-60, 67-68, 77-78) are modelled as map operations that always succeed. A storage failure on the `Tables` table is not modelled.
- `send_hasura_api_query` is modelled as a `Send` event. Its HTTP transport, the admin secret header, and the replies to the track, permission and bulk requests are not modelled; the code ignores those replies. An exception from the HTTP client after the commit is not modelled.
- The reply to `pg_suggest_relationships` enters as an already parsed list of suggestions. JSON decoding and a missing key in the reply are not modelled.
- The permission body's `filter: {}` is fixed by the code and is not a field of the model.
- Text.Lower: folds only ASCII capitals, not all of Python's Unicode `str.lower`.
- BatchWriter.KeyErrorText: wraps the column in single quotes and does not model how `repr` escapes a key that itself contains quotes.
- Payload values are null, booleans, integers and strings. Floating-point values are not modelled, and neither are rows that are not JSON objects (a TypeError).
- Concurrent requests on the shared global cursor are not modelled. The model handles one request at a time.
- `connection.commit()` and `connection.rollback()` (app.py:162, app.py:177, app.py:180) always succeed in the model. A failing commit, which the code does not catch, is not modelled, and neither is a failing rollback.
- The `print` logging of errors (app.py:161, app.py:176) is output only and is not modelled.
- The aborted-transaction state of the store after a failed statement is not modelled, because the code rolls back at once.

=== FILE: batch_writer.dfy ===
/** The batch write of the `/insert` handler: every row of the payload is
    projected onto the declared columns, and the table is replaced by
    `TRUNCATE <table> CASCADE` followed by one parameterised INSERT run once
    per row. */
module BatchWriter {

  import opened Results
  import opened Text
  import opened Store

  /** A payload row: a JSON object from column name to value. */
  type Row = map<string, Value>

  /** `t` is `s` with one `mark` before and one after it. */
  predicate Enclosed(t: string, mark: char, s: string)
  {
    |t| == |s| + 2 && t[0] == mark && t[|t| - 1] == mark && t[1..|t| - 1] == s
  }

  /** `str(KeyError(col))` */
  function KeyErrorText(col: string): string
  {
    "'" + col + "'"
  }

  /** The error text of a missing column is the column name between single
      quotes, so the name can be read back from it. */
  lemma KeyErrorNamesColumn(col: string)
    ensures Enclosed(KeyErrorText(col), '\'', col)
  {
  }

  /** `tuple(row[col] for col in columns)`: the row's values in column
      order, or the KeyError of the first column the row lacks. */
  function ProjectRow(row: Row, columns: seq<string>): (r: Result<seq<Value>>)
    ensures r.Ok? <==> forall i :: 0 <= i < |columns| ==> columns[i] in row
    ensures r.Ok? ==> |r.value| == |columns| && forall i :: 0 <= i < |columns| ==> r.value[i] == row[columns[i]]
    ensures r.Err? ==> exists i :: 0 <= i < |columns| && columns[i] !in row && r.error == KeyErrorText(columns[i])
                                   && forall j :: 0 <= j < i ==> columns[j] in row
    decreases |columns|
  {
    if |columns| == 0 then Ok([])
    else if columns[0] !in row then Err(KeyErrorText(columns[0]))
    else
      var rest := ProjectRow(row, columns[1..]);
      if rest.Err? then
        assert forall i :: 1 <= i < |columns| ==> columns[i] == columns[1..][i - 1];
        Err(rest.error)
      else Ok([row[columns[0]]] + rest.value)
  }

  /** The list of tuples handed to `executemany`: one per row, in payload
      order, or the KeyError of the first row that lacks a column. */
  function ProjectRows(rows: seq<Row>, columns: seq<string>): (r: Result<seq<seq<Value>>>)
    ensures r.Ok? <==> forall k :: 0 <= k < |rows| ==> ProjectRow(rows[k], columns).Ok?
    ensures r.Ok? ==> |r.value| == |rows| && forall k :: 0 <= k < |rows| ==> r.value[k] == ProjectRow(rows[k], columns).value
    ensures r.Err? ==> exists k :: 0 <= k < |rows| && ProjectRow(rows[k], columns) == Err(r.error)
                                   && forall j :: 0 <= j < k ==> ProjectRow(rows[j], columns).Ok?
    decreases |rows|
  {
    if |rows| == 0 then Ok([])
    else
      var first := ProjectRow(rows[0], columns);
      if first.Err? then Err(first.error)
      else
        var rest := ProjectRows(rows[1..], columns);
        if rest.Err? then
          assert forall k :: 1 <= k < |rows| ==> rows[k] == rows[1..][k - 1];
          Err(rest.error)
        else Ok([first.value] + rest.value)
  }

  /** `f'"{col}"'` */
  function Quote(col: string): (q: string)
    ensures Enclosed(q, '"', col)
  {
    "\"" + col + "\""
  }

  /** `[f'"{col}"' for col in columns]` */
  function QuoteAll(columns: seq<string>): (quoted: seq<string>)
    ensures |quoted| == |columns|
    ensures forall i :: 0 <= i < |columns| ==> quoted[i] == Quote(columns[i])
  {
    seq(|columns|, i requires 0 <= i < |columns| => Quote(columns[i]))
  }

  /** `f'TRUNCATE {table} CASCADE'`: the table name sits between the two
      keywords and can be read back from the statement. */
  function TruncateCommand(table: string): (cmd: string)
    ensures |cmd| == |table| + 17
    ensures cmd[..9] == "TRUNCATE " && cmd[9..|cmd| - 8] == table && cmd[|cmd| - 8..] == " CASCADE"
  {
    "TRUNCATE " + table + " CASCADE"
  }

  predicate Free(c: char, s: string) { forall i :: 0 <= i < |s| ==> s[i] != c }

  /** `", ".join(["%s"] * n)`: exactly one '%' per placeholder. */
  function Placeholders(n: nat): (p: string)
    ensures Count('%', p) == n
  {
    var parts := seq(n, _ => "%s");
    PercentPerPlaceholder(parts);
    Join(", ", parts)
  }

  /** The INSERT text built from the table name and the quoted columns
      (its layout is `InsertCommandLayout`). Every '%' in it comes from the
      table name, from a column name, or is a placeholder, and there is one
      placeholder per column. */
  function InsertCommand(table: string, quoted: seq<string>): (cmd: string)
    ensures Count('%', cmd) == Count('%', table) + Count('%', Join(", ", quoted)) + |quoted|
  {
    var list := Join(", ", quoted);
    var ph := Placeholders(|quoted|);
    var tail := ") VALUES (" + ph + ")";
    InsertTextCount(table, list, ph);
    "INSERT INTO " + (table + ("(" + (list + tail)))
  }

  /** `f'INSERT INTO {table}({", ".join(quoted)}) VALUES ({placeholders})'`:
      the table name and the column list can be read back from the statement
      at their places between the keywords and the parentheses, and the
      placeholder list closes it. */
  lemma InsertCommandLayout(table: string, quoted: seq<string>)
    ensures var cmd := InsertCommand(table, quoted);
            var list := Join(", ", quoted);
            var open := 12 + |table|;
            && |cmd| == open + 1 + |list| + 11 + |Placeholders(|quoted|)|
            && cmd[..12] == "INSERT INTO "
            && cmd[12..open] == table
            && cmd[open] == '('
            && cmd[open + 1..open + 1 + |list|] == list
            && cmd[open + 1 + |list|..] == ") VALUES (" + Placeholders(|quoted|) + ")"
  {
    InsertTextReadBack(table, Join(", ", quoted), ") VALUES (" + Placeholders(|quoted|) + ")");
  }

  lemma {:induction false} CountFree(c: char, s: string)
    requires Free(c, s)
    ensures Count(c, s) == 0
    decreases |s|
  {
    if |s| > 0 {
      CountFree(c, s[1..]);
    }
  }

  /** Joining `%s` placeholders with ", " gives one '%' per placeholder. */
  lemma PercentPerPlaceholder(parts: seq<string>)
    requires forall i :: 0 <= i < |parts| ==> parts[i] == "%s"
    ensures Count('%', Join(", ", parts)) == |parts|
  {
    forall i | 0 <= i < |parts|
      ensures Count('%', parts[i]) == 1
    {
      assert parts[i][1..][1..] == [];
    }
    assert Count('%', ", ") == 0 by {
      assert ", "[1..][1..] == [];
    }
    CountJoin('%', ", ", parts, 1);
  }

  /** Each column is wrapped in exactly one pair of double quotes: the column
      list of a statement holds two '"' per column when no column name
      contains one. */
  lemma QuotedColumnsCount(columns: seq<string>)
    requires forall i :: 0 <= i < |columns| ==> Free('"', columns[i])
    ensures Count('"', Join(", ", QuoteAll(columns))) == 2 * |columns|
  {
    var quoted := QuoteAll(columns);
    forall i | 0 <= i < |columns|
      ensures Count('"', quoted[i]) == 2
    {
      CountFree('"', columns[i]);
      CountAppend('"', "\"" + columns[i], "\"");
      CountAppend('"', "\"", columns[i]);
      assert "\""[1..] == [];
    }
    assert Count('"', ", ") == 0 by {
      assert ", "[1..][1..] == [];
    }
    CountJoin('"', ", ", quoted, 2);
  }

  /** The column list of the INSERT holds no '%' when no column name does. */
  lemma ColumnListCount(columns: seq<string>)
    requires forall i :: 0 <= i < |columns| ==> Free('%', columns[i])
    ensures Count('%', Join(", ", QuoteAll(columns))) == 0
  {
    var quoted := QuoteAll(columns);
    forall i | 0 <= i < |columns|
      ensures Count('%', quoted[i]) == 0
    {
      assert Free('%', quoted[i]);
      CountFree('%', quoted[i]);
    }
    assert Count('%', ", ") == 0 by {
      assert ", "[1..][1..] == [];
    }
    CountJoin('%', ", ", quoted, 0);
  }

  /** The fixed words of the INSERT statement hold no '%'. */
  lemma InsertKeywordsHaveNoPercent()
    ensures Count('%', "INSERT INTO ") == 0
  {
    assert Free('%', "INSERT INTO ");
    CountFree('%', "INSERT INTO ");
  }

  lemma ValuesKeywordsHaveNoPercent()
    ensures Count('%', ") VALUES (") == 0
  {
    assert Free('%', ") VALUES (");
    CountFree('%', ") VALUES (");
  }

  lemma InsertTextCount(table: string, list: string, ph: string)
    ensures Count('%', "INSERT INTO " + (table + ("(" + (list + (") VALUES (" + ph + ")")))))
            == Count('%', table) + Count('%', list) + Count('%', ph)
  {
    var tail := ") VALUES (" + ph + ")";
    InsertKeywordsHaveNoPercent();
    ValuesKeywordsHaveNoPercent();
    assert "("[1..] == [] && ")"[1..] == [];
    CountAppend('%', "INSERT INTO ", table + ("(" + (list + tail)));
    CountAppend('%', table, "(" + (list + tail));
    CountAppend('%', "(", list + tail);
    CountAppend('%', list, tail);
    CountAppend('%', ") VALUES (" + ph, ")");
    CountAppend('%', ") VALUES (", ph);
  }

  lemma Pieces<T>(a: seq<T>, b: seq<T>)
    ensures (a + b)[..|a|] == a && (a + b)[|a|..] == b
  {
  }

  /** The table name and the column list sit at fixed places of the INSERT
      text, between the keywords and the parentheses. */
  lemma InsertTextReadBack(table: string, list: string, tail: string)
    ensures var cmd := "INSERT INTO " + (table + ("(" + (list + tail)));
            var open := 12 + |table|;
            && |cmd| == open + 1 + |list| + |tail|
            && cmd[..12] == "INSERT INTO "
            && cmd[12..open] == table
            && cmd[open] == '('
            && cmd[open + 1..open + 1 + |list|] == list
            && cmd[open + 1 + |list|..] == tail
  {
    var r3 := list + tail;
    var r2 := "(" + r3;
    var r1 := table + r2;
    var cmd := "INSERT INTO " + r1;
    var open := 12 + |table|;
    Pieces("INSERT INTO ", r1);
    Pieces(table, r2);
    Pieces("(", r3);
    Pieces(list, tail);
    assert cmd[12..] == r1;
    assert cmd[12..open] == r1[..|table|];
    assert cmd[open + 1..] == r3;
    assert cmd[open + 1..open + 1 + |list|] == r3[..|list|];
  }

  /** The INSERT statement has exactly one `%s` placeholder per column: when
      neither the table name nor a column name contains '%', every '%' in the
      statement is a placeholder, and there are `|columns|` of them. */
  lemma InsertPlaceholderCount(table: string, columns: seq<string>)
    requires Free('%', table)
    requires forall i :: 0 <= i < |columns| ==> Free('%', columns[i])
    ensures Count('%', InsertCommand(table, QuoteAll(columns))) == |columns|
  {
    CountFree('%', table);
    ColumnListCount(columns);
  }
}

=== FILE: handler.dfy ===
/** What one `/insert` request does, as a pure function of the registry,
    the request, the payload, the store's answers and the relationship
    suggestions: the events it produces, its response and the registry it
    leaves. The imperative service (module Server) is proved to behave
    exactly like this; the properties of the request handling are proved
    here. */
module Handler {

  import opened Results
  import opened Text
  import opened Store
  import opened Registry
  import opened MetadataApi
  import opened Relationships
  import opened BatchWriter

  /** What the service does that can be observed from outside: a command on
      the cursor, the end of the transaction, or a request to the metadata API. */
  datatype Event = Run(cmd: Command) | Commit | Rollback | Send(query: Query)

  /** The `Metadata` body of a request. */
  datatype Request = Request(tableName: string, sqlUp: string, sqlDown: string, columns: seq<string>)

  /** `{"status": "success"}` or `{"status": "error", "error": ...}` */
  datatype Response = Success | Error(error: string)

  function Runs(cmds: seq<Command>): (evs: seq<Event>)
    ensures |evs| == |cmds| && forall i :: 0 <= i < |cmds| ==> evs[i] == Run(cmds[i])
  {
    seq(|cmds|, i requires 0 <= i < |cmds| => Run(cmds[i]))
  }

  function SentBy(e: Event): seq<Query>
  {
    if e.Send? then [e.query] else []
  }

  /** The metadata requests among some events, in order. */
  function Sent(evs: seq<Event>): seq<Query>
    decreases |evs|
  {
    if |evs| == 0 then [] else SentBy(evs[0]) + Sent(evs[1..])
  }

  lemma {:induction false} SentAppend(a: seq<Event>, b: seq<Event>)
    ensures Sent(a + b) == Sent(a) + Sent(b)
    decreases |a|
  {
    if |a| == 0 {
      assert a + b == b;
    } else {
      calc {
        Sent(a + b);
        SentBy(a[0]) + Sent((a + b)[1..]);
        { assert (a + b)[1..] == a[1..] + b; }
        SentBy(a[0]) + Sent(a[1..] + b);
        { SentAppend(a[1..], b); }
        SentBy(a[0]) + (Sent(a[1..]) + Sent(b));
      }
    }
  }

  lemma SentSingle(e: Event)
    ensures Sent([e]) == SentBy(e)
  {
    assert [e][1..] == [];
  }

  lemma {:induction false} SentNone(evs: seq<Event>)
    requires forall i :: 0 <= i < |evs| ==> !evs[i].Send?
    ensures Sent(evs) == []
    decreases |evs|
  {
    if |evs| > 0 {
      SentNone(evs[1..]);
    }
  }

  // ---------------------------------------------------------------- create_table

  function DdlCommands(a: Action, up: string): (cmds: seq<Command>)
    ensures |cmds| == |Ddl(a, up)| && forall i :: 0 <= i < |cmds| ==> cmds[i] == Exec(Ddl(a, up)[i])
  {
    seq(|Ddl(a, up)|, i requires 0 <= i < |Ddl(a, up)| => Exec(Ddl(a, up)[i]))
  }

  datatype Migration = Migration(events: seq<Event>, result: Result<bool>, tables: Tables)

  /** `create_table` for the lower-cased name `key`: the branch's DDL
      statements run in order until the store rejects one. If one is
      rejected the error propagates and the registry row is not written;
      otherwise the row is written and the result says whether DDL ran. */
  function Migrate(tables: Tables, key: string, up: string, down: string, store: Command -> Reply): (m: Migration)
    ensures m.result.Ok? ==> m.tables == Migrated(tables, key, up, down)
    ensures m.result.Ok? ==> (m.result.value <==> Decide(tables, key, up) != Unchanged)
    ensures m.result.Err? ==> m.tables == tables && |m.events| > 0
    ensures forall i :: 0 <= i < |m.events| ==> m.events[i].Run?
    ensures m.result.Ok? ==> forall i :: 0 <= i < |m.events| ==> store(m.events[i].cmd) == Done
  {
    var cmds := DdlCommands(Decide(tables, key, up), up);
    var i := FirstFailure(cmds, store);
    if i < |cmds| then Migration(Runs(cmds[..i + 1]), Err(store(cmds[i]).message), tables)
    else Migration(Runs(cmds), Ok(Decide(tables, key, up) != Unchanged), Migrated(tables, key, up, down))
  }

  /** A name absent from the registry: `up` runs, and if it is accepted the
      row `key -> (up, down)` is added and the result is true. */
  lemma MigrateAbsent(tables: Tables, key: string, up: string, down: string, store: Command -> Reply)
    requires key !in tables
    ensures var m := Migrate(tables, key, up, down, store);
            m.events == [Run(Exec(up))] &&
            if store(Exec(up)).Failed? then m.result == Err(store(Exec(up)).message) && m.tables == tables
            else m.result == Ok(true) && m.tables == tables[key := SchemaRecord(up, down)]
  {
    var cmds := DdlCommands(Create, up);
    assert cmds == [Exec(up)];
    assert cmds[..1] == cmds;
    assert FirstFailure(cmds[1..], store) == 0;
  }

  /** A stored `up` that differs: the STORED `down` runs, then the new `up`;
      if both are accepted both fields of the row are replaced and the result
      is true. */
  lemma MigrateChanged(tables: Tables, key: string, up: string, down: string, store: Command -> Reply)
    requires key in tables && tables[key].up != up
    ensures var m := Migrate(tables, key, up, down, store);
            var old_down := tables[key].down;
            if store(Exec(old_down)).Failed? then
              m.events == [Run(Exec(old_down))] && m.result == Err(store(Exec(old_down)).message) && m.tables == tables
            else if store(Exec(up)).Failed? then
              m.events == [Run(Exec(old_down)), Run(Exec(up))] && m.result == Err(store(Exec(up)).message) && m.tables == tables
            else
              m.events == [Run(Exec(old_down)), Run(Exec(up))] && m.result == Ok(true)
              && m.tables == tables[key := SchemaRecord(up, down)]
  {
    var cmds := DdlCommands(Recreate(tables[key].down), up);
    assert cmds == [Exec(tables[key].down), Exec(up)];
    assert cmds[..1] == [Exec(tables[key].down)];
    assert cmds[..2] == cmds;
    assert cmds[1..][1..] == [];
  }

  /** A stored `up` equal to the requested one: no DDL, no change to the
      registry (even when `down` differs), and the result is false. */
  lemma MigrateUnchanged(tables: Tables, key: string, up: string, down: string, store: Command -> Reply)
    requires key in tables && tables[key].up == up
    ensures Migrate(tables, key, up, down, store) == Migration([], Ok(false), tables)
  {
  }

  /** A failing `create_table` stops at the rejected statement: every
      statement before it was accepted, and the last one run was rejected
      with the message that is returned. */
  lemma MigrateStopsAtFailure(tables: Tables, key: string, up: string, down: string, store: Command -> Reply)
    ensures var m := Migrate(tables, key, up, down, store);
            m.result.Err? ==>
              && |m.events| > 0
              && (forall i :: 0 <= i < |m.events| - 1 ==> m.events[i].Run? && store(m.events[i].cmd) == Done)
              && m.events[|m.events| - 1].Run?
              && store(m.events[|m.events| - 1].cmd) == Failed(m.result.error)
  {
  }

  // ---------------------------------------------------------------- data write

  datatype Write = Write(events: seq<Event>, error: Option<string>)

  /** `TRUNCATE <table> CASCADE`, the projection of the rows, and the INSERT
      run once per row, stopping at the first failure. */
  function WriteBatch(table: string, columns: seq<string>, rows: seq<Row>, store: Command -> Reply): (w: Write)
    ensures 1 <= |w.events| <= 2 && w.events[0] == Run(Exec(TruncateCommand(table)))
    ensures forall i :: 0 <= i < |w.events| ==> w.events[i].Run?
    ensures w.error.None? <==>
              && store(Exec(TruncateCommand(table))) == Done
              && ProjectRows(rows, columns).Ok?
              && store(ExecMany(InsertCommand(table, QuoteAll(columns)), ProjectRows(rows, columns).value)) == Done
    ensures store(Exec(TruncateCommand(table))).Failed? ==>
              w.error == Some(store(Exec(TruncateCommand(table))).message)
    ensures store(Exec(TruncateCommand(table))) == Done && ProjectRows(rows, columns).Err? ==>
              w.error == Some(ProjectRows(rows, columns).error)
    ensures store(Exec(TruncateCommand(table))) == Done && ProjectRows(rows, columns).Ok?
            && store(ExecMany(InsertCommand(table, QuoteAll(columns)), ProjectRows(rows, columns).value)).Failed? ==>
              w.error == Some(store(ExecMany(InsertCommand(table, QuoteAll(columns)), ProjectRows(rows, columns).value)).message)
  {
    var truncate := Exec(TruncateCommand(table));
    if store(truncate).Failed? then Write([Run(truncate)], Some(store(truncate).message))
    else
      match ProjectRows(rows, columns)
      case Err(e) => Write([Run(truncate)], Some(e))
      case Ok(values) =>
        var insert := ExecMany(InsertCommand(table, QuoteAll(columns)), values);
        Write([Run(truncate), Run(insert)], if store(insert).Failed? then Some(store(insert).message) else None)
  }

  /** A successful write truncates and then inserts one tuple per payload
      row, in payload order, each holding the row's values in column order. */
  lemma WriteInsertsRowsInColumnOrder(table: string, columns: seq<string>, rows: seq<Row>, store: Command -> Reply)
    requires WriteBatch(table, columns, rows, store).error.None?
    ensures var w := WriteBatch(table, columns, rows, store);
            && |w.events| == 2
            && w.events[1].cmd.ExecMany?
            && w.events[1].cmd.sql == InsertCommand(table, QuoteAll(columns))
            && |w.events[1].cmd.rows| == |rows|
            && forall k, i :: 0 <= k < |rows| && 0 <= i < |columns| ==>
                 columns[i] in rows[k] && |w.events[1].cmd.rows[k]| == |columns|
                 && w.events[1].cmd.rows[k][i] == rows[k][columns[i]]
  {
  }

  /** A payload row that lacks a declared column makes the write fail with
      a KeyError before the INSERT is sent. */
  lemma MissingColumnFailsWrite(table: string, columns: seq<string>, rows: seq<Row>, store: Command -> Reply,
                                k: nat, i: nat)
    requires k < |rows| && i < |columns| && columns[i] !in rows[k]
    ensures var w := WriteBatch(table, columns, rows, store);
            w.error.Some? && w.events == [Run(Exec(TruncateCommand(table)))]
  {
    assert !ProjectRow(rows[k], columns).Ok?;
  }

  // ---------------------------------------------------------------- metadata sync

  /** The requests sent after the commit when the table was (re)created,
      in order: track the table, grant `anonymous` unrestricted select, ask
      for relationship suggestions, and create them in one `bulk` request. */
  function SyncQueries(table: string, suggestions: seq<Suggestion>): (qs: seq<Query>)
    ensures |qs| == 4
    ensures TypeName(qs[0]) == "pg_track_table" && TypeName(qs[1]) == "pg_create_select_permission"
    ensures TypeName(qs[2]) == "pg_suggest_relationships" && TypeName(qs[3]) == "bulk"
    ensures qs[0].source == "default" && qs[0].schema == "public" && qs[0].name == table
    ensures qs[1].source == "default" && qs[1].table == table && qs[1].role == "anonymous"
    ensures qs[2].tables == [table] && qs[3].args == RelationshipQueries(suggestions)
  {
    [ TrackTable("default", "public", table),
      CreateSelectPermission("default", table, "anonymous", "*", true),
      SuggestRelationships(1, true, [table]),
      Bulk(RelationshipQueries(suggestions)) ]
  }

  /** Each request sent to the metadata API, in order. */
  function Sends(qs: seq<Query>): (evs: seq<Event>)
    ensures |evs| == |qs| && forall i :: 0 <= i < |qs| ==> evs[i] == Send(qs[i])
  {
    seq(|qs|, i requires 0 <= i < |qs| => Send(qs[i]))
  }

  /** The metadata requests among the events of `Sends(qs)` are `qs`. */
  lemma {:induction false} SentSends(qs: seq<Query>)
    ensures Sent(Sends(qs)) == qs
    decreases |qs|
  {
    if |qs| > 0 {
      assert Sends(qs)[1..] == Sends(qs[1..]);
      SentSends(qs[1..]);
    }
  }

  /** The post-commit steps: only metadata requests, and exactly the four of
      `SyncQueries`, in that order. */
  function Sync(table: string, suggestions: seq<Suggestion>): (evs: seq<Event>)
    ensures forall i :: 0 <= i < |evs| ==> evs[i].Send?
    ensures Sent(evs) == SyncQueries(table, suggestions)
  {
    SentSends(SyncQueries(table, suggestions));
    Sends(SyncQueries(table, suggestions))
  }

  // ---------------------------------------------------------------- /insert

  datatype Handled = Handled(events: seq<Event>, response: Response, tables: Tables)

  /** The transactional part of the handler: `create_table` and the write
      share one transaction; any failure rolls it back and answers with the
      error, otherwise the transaction commits. `created` is true when the
      commit follows a `create_table` that returned true. */
  datatype Transacted = Transacted(events: seq<Event>, response: Response, tables: Tables, created: bool)

  function Transaction(tables: Tables, req: Request, rows: seq<Row>, store: Command -> Reply): (t: Transacted)
    ensures var key := Lower(req.tableName);
            var m := Migrate(tables, key, req.sqlUp, req.sqlDown, store);
            var w := WriteBatch(key, req.columns, rows, store);
            && (t.response.Success? <==> m.result.Ok? && w.error.None?)
            && (m.result.Err? ==> t.events == m.events + [Rollback] && t.response == Error(m.result.error))
            && (m.result.Ok? ==> t.events == m.events + w.events + [if w.error.None? then Commit else Rollback])
            && (m.result.Ok? && w.error.Some? ==> t.response == Error(w.error.value))
    ensures |t.events| > 0
    ensures t.response.Error? ==> t.tables == tables && !t.created && t.events[|t.events| - 1] == Rollback
    ensures t.response.Success? ==> t.events[|t.events| - 1] == Commit
  {
    var key := Lower(req.tableName);
    var m := Migrate(tables, key, req.sqlUp, req.sqlDown, store);
    if m.result.Err? then Transacted(m.events + [Rollback], Error(m.result.error), tables, false)
    else
      var w := WriteBatch(key, req.columns, rows, store);
      if w.error.Some? then Transacted(m.events + w.events + [Rollback], Error(w.error.value), tables, false)
      else Transacted(m.events + w.events + [Commit], Success, m.tables, m.result.value)
  }

  /** The `/insert` handler: the transaction and then, if `create_table`
      returned true, the metadata requests. */
  function Handle(tables: Tables, req: Request, rows: seq<Row>, store: Command -> Reply,
                  suggestions: seq<Suggestion>): (h: Handled)
    ensures |h.events| > 0
    ensures h.response.Error? ==> h.tables == tables
  {
    var t := Transaction(tables, req, rows, store);
    Handled(t.events + (if t.created then Sync(Lower(req.tableName), suggestions) else []), t.response, t.tables)
  }

  /** Every event but the last is a command, and the last is `last`. */
  predicate EndsWith(evs: seq<Event>, last: Event)
  {
    |evs| > 0 && evs[|evs| - 1] == last && forall i :: 0 <= i < |evs| - 1 ==> evs[i].Run?
  }

  lemma CommandsThen(runs: seq<Event>, last: Event)
    requires forall i :: 0 <= i < |runs| ==> runs[i].Run?
    requires !last.Send?
    ensures EndsWith(runs + [last], last)
    ensures Sent(runs + [last]) == []
  {
    var evs := runs + [last];
    assert forall i :: 0 <= i < |runs| ==> evs[i] == runs[i];
    SentNone(evs);
  }

  lemma CommandsAppend(a: seq<Event>, b: seq<Event>)
    requires forall i :: 0 <= i < |a| ==> a[i].Run?
    requires forall i :: 0 <= i < |b| ==> b[i].Run?
    ensures forall i :: 0 <= i < |a + b| ==> (a + b)[i].Run?
  {
    assert forall i :: 0 <= i < |a| ==> (a + b)[i] == a[i];
    assert forall i :: |a| <= i < |a + b| ==> (a + b)[i] == b[i - |a|];
  }

  /** The transaction runs commands and ends with a commit on success and a
      rollback on failure; it sends nothing to the metadata API; its commands
      stop at the first one the store rejects; and `created` holds exactly
      when it commits a table that was created or recreated. */
  lemma TransactionEvents(tables: Tables, req: Request, rows: seq<Row>, store: Command -> Reply)
    ensures var t := Transaction(tables, req, rows, store);
            && EndsWith(t.events, if t.response.Success? then Commit else Rollback)
            && Sent(t.events) == []
            && HaltsAtFailure(t.events, store)
            && (t.response.Success? ==> AllAccepted(t.events, store))
            && (t.created <==> t.response.Success? && Decide(tables, Lower(req.tableName), req.sqlUp) != Unchanged)
  {
    var key := Lower(req.tableName);
    var m := Migrate(tables, key, req.sqlUp, req.sqlDown, store);
    MigrateHalts(tables, key, req.sqlUp, req.sqlDown, store);
    if m.result.Err? {
      CommandsThen(m.events, Rollback);
      HaltsAppendNoCommands(m.events, [Rollback], store);
    } else {
      var w := WriteBatch(key, req.columns, rows, store);
      WriteHalts(key, req.columns, rows, store);
      CommandsAppend(m.events, w.events);
      HaltsAppend(m.events, w.events, store);
      var last := if w.error.Some? then Rollback else Commit;
      CommandsThen(m.events + w.events, last);
      HaltsAppendNoCommands(m.events + w.events, [last], store);
    }
  }

  /** A failed request ends with a rollback, never commits, sends nothing to
      the metadata API and leaves the registry as it was. */
  lemma FailureRollsBack(tables: Tables, req: Request, rows: seq<Row>, store: Command -> Reply,
                         suggestions: seq<Suggestion>)
    ensures var h := Handle(tables, req, rows, store, suggestions);
            h.response.Error? ==>
              && |h.events| > 0 && h.events[|h.events| - 1] == Rollback
              && (forall i :: 0 <= i < |h.events| ==> h.events[i] != Commit && !h.events[i].Send?)
              && h.tables == tables
  {
    var t := Transaction(tables, req, rows, store);
    TransactionEvents(tables, req, rows, store);
    if t.response.Error? {
      assert Handle(tables, req, rows, store, suggestions).events == t.events + [];
      assert t.events + [] == t.events;
    }
  }

  /** Each step of the transaction that fails makes the request fail with
      that step's error, and the rollback follows the failing command at
      once: a rejected DDL statement, a rejected truncate, a row missing a
      column (its KeyError), or a rejected INSERT. */
  lemma FailedStepFailsRequest(tables: Tables, req: Request, rows: seq<Row>, store: Command -> Reply,
                               suggestions: seq<Suggestion>)
    ensures var key := Lower(req.tableName);
            var m := Migrate(tables, key, req.sqlUp, req.sqlDown, store);
            var truncate := Exec(TruncateCommand(key));
            var values := ProjectRows(rows, req.columns);
            var h := Handle(tables, req, rows, store, suggestions);
            && (m.result.Err? ==>
                  h.response == Error(m.result.error) && h.events == m.events + [Rollback])
            && (m.result.Ok? && store(truncate).Failed? ==>
                  h.response == Error(store(truncate).message) && h.events == m.events + [Run(truncate), Rollback])
            && (m.result.Ok? && store(truncate) == Done && values.Err? ==>
                  h.response == Error(values.error) && h.events == m.events + [Run(truncate), Rollback])
            && (m.result.Ok? && store(truncate) == Done && values.Ok? ==>
                  var insert := ExecMany(InsertCommand(key, QuoteAll(req.columns)), values.value);
                  store(insert).Failed? ==>
                    h.response == Error(store(insert).message)
                    && h.events == m.events + [Run(truncate), Run(insert), Rollback])
  {
    var t := Transaction(tables, req, rows, store);
    if t.response.Error? {
      assert Handle(tables, req, rows, store, suggestions).events == t.events + [];
      assert t.events + [] == t.events;
    }
  }

  /** A request succeeds exactly when `create_table` succeeds, the store
      accepts the truncate, every row has every declared column and the store
      accepts the INSERT over the projected rows. A successful request runs
      the DDL, the truncate and the INSERT, commits, and then sends the
      metadata requests when the table was created or recreated. */
  lemma SuccessfulRequestWrites(tables: Tables, req: Request, rows: seq<Row>, store: Command -> Reply,
                                suggestions: seq<Suggestion>)
    ensures var key := Lower(req.tableName);
            var m := Migrate(tables, key, req.sqlUp, req.sqlDown, store);
            var truncate := Exec(TruncateCommand(key));
            var values := ProjectRows(rows, req.columns);
            var h := Handle(tables, req, rows, store, suggestions);
            && (h.response.Success? <==>
                  && m.result.Ok? && store(truncate) == Done && values.Ok?
                  && store(ExecMany(InsertCommand(key, QuoteAll(req.columns)), values.value)) == Done)
            && (h.response.Success? ==>
                  h.events == m.events + [Run(truncate), Run(ExecMany(InsertCommand(key, QuoteAll(req.columns)), values.value)), Commit]
                              + (if Decide(tables, key, req.sqlUp) != Unchanged then Sync(key, suggestions) else []))
  {
    var key := Lower(req.tableName);
    var m := Migrate(tables, key, req.sqlUp, req.sqlDown, store);
    var w := WriteBatch(key, req.columns, rows, store);
    var t := Transaction(tables, req, rows, store);
    TransactionEvents(tables, req, rows, store);
    if t.response.Success? {
      WriteInsertsRowsInColumnOrder(key, req.columns, rows, store);
      var insert := ExecMany(InsertCommand(key, QuoteAll(req.columns)), ProjectRows(rows, req.columns).value);
      assert w.events == [Run(Exec(TruncateCommand(key))), Run(insert)];
      assert t.events == m.events + [Run(Exec(TruncateCommand(key))), Run(insert), Commit];
      if !t.created {
        assert t.events + [] == t.events;
      }
    }
  }

  /** A payload row that lacks a declared column fails the whole request:
      the response is an error, the transaction rolls back, nothing is
      committed or sent to the metadata API, and the registry is kept. */
  lemma MissingColumnFailsRequest(tables: Tables, req: Request, rows: seq<Row>, store: Command -> Reply,
                                  suggestions: seq<Suggestion>, k: nat, i: nat)
    requires k < |rows| && i < |req.columns| && req.columns[i] !in rows[k]
    ensures var h := Handle(tables, req, rows, store, suggestions);
            && h.response.Error?
            && h.events[|h.events| - 1] == Rollback
            && (forall j :: 0 <= j < |h.events| ==> h.events[j] != Commit && !h.events[j].Send?)
            && h.tables == tables
  {
    MissingColumnFailsWrite(Lower(req.tableName), req.columns, rows, store, k, i);
    FailureRollsBack(tables, req, rows, store, suggestions);
  }

  /** The events commit exactly once, never roll back, and every metadata
      request comes after the commit. */
  predicate CommittedBeforeSending(evs: seq<Event>)
  {
    && Commit in evs && Rollback !in evs
    && (forall i, j :: 0 <= i < |evs| && 0 <= j < |evs| && evs[j] == Commit && i != j ==> evs[i] != Commit)
    && (forall i, j :: 0 <= i < |evs| && 0 <= j < |evs| && evs[i].Send? && evs[j] == Commit ==> j < i)
  }

  /** Commands, then one commit, then metadata requests. */
  lemma CommitThenSends(committed: seq<Event>, tail: seq<Event>)
    requires EndsWith(committed, Commit)
    requires forall i :: 0 <= i < |tail| ==> tail[i].Send?
    ensures CommittedBeforeSending(committed + tail)
  {
    var evs := committed + tail;
    var n := |committed|;
    assert forall i :: 0 <= i < n ==> evs[i] == committed[i];
    assert evs[n - 1] == Commit;
    assert forall i :: n <= i < |evs| ==> evs[i] == tail[i - n];
  }

  /** A successful request commits exactly once, never rolls back, and every
      metadata request comes after the commit. */
  lemma CommitPrecedesMetadataRequests(tables: Tables, req: Request, rows: seq<Row>, store: Command -> Reply,
                                       suggestions: seq<Suggestion>)
    ensures var h := Handle(tables, req, rows, store, suggestions);
            h.response.Success? ==> CommittedBeforeSending(h.events)
  {
    var t := Transaction(tables, req, rows, store);
    TransactionEvents(tables, req, rows, store);
    if t.response.Success? {
      var tail := if t.created then Sync(Lower(req.tableName), suggestions) else [];
      assert EndsWith(t.events, Commit);
      CommitThenSends(t.events, tail);
    }
  }

  /** The metadata requests a request sends: none when it fails or when
      `create_table` returned false; otherwise, in this order, track,
      select permission for `anonymous`, suggest, and the bulk creation of
      the inferred relationships. A recreated table gets them again. */
  lemma MetadataRequestsIffCreated(tables: Tables, req: Request, rows: seq<Row>, store: Command -> Reply,
                                   suggestions: seq<Suggestion>)
    ensures var h := Handle(tables, req, rows, store, suggestions);
            var key := Lower(req.tableName);
            Sent(h.events) ==
              if h.response.Success? && Decide(tables, key, req.sqlUp) != Unchanged then
                SyncQueries(key, suggestions)
              else []
  {
    var t := Transaction(tables, req, rows, store);
    TransactionEvents(tables, req, rows, store);
    var tail := if t.created then Sync(Lower(req.tableName), suggestions) else [];
    SentAppend(t.events, tail);
    assert Sent([]) == [];
  }

  /** A successful request leaves the registry holding the request's `up`
      for the lower-cased name and every other row as it was. */
  lemma SuccessRecordsUp(tables: Tables, req: Request, rows: seq<Row>, store: Command -> Reply,
                         suggestions: seq<Suggestion>)
    ensures var h := Handle(tables, req, rows, store, suggestions);
            var key := Lower(req.tableName);
            h.response.Success? ==>
              && key in h.tables && h.tables[key].up == req.sqlUp
              && (forall k :: k in tables && k != key ==> k in h.tables && h.tables[k] == tables[k])
  {
  }

  /** Every command among the events was accepted by the store. */
  predicate AllAccepted(evs: seq<Event>, store: Command -> Reply)
  {
    forall i :: 0 <= i < |evs| && evs[i].Run? ==> store(evs[i].cmd) == Done
  }

  /** No command is sent after one the store rejected. */
  predicate HaltsAtFailure(evs: seq<Event>, store: Command -> Reply)
  {
    forall i, j :: 0 <= i < j < |evs| && evs[i].Run? && evs[j].Run? ==> store(evs[i].cmd) == Done
  }

  lemma HaltsAppend(a: seq<Event>, b: seq<Event>, store: Command -> Reply)
    requires AllAccepted(a, store) && HaltsAtFailure(b, store)
    ensures HaltsAtFailure(a + b, store)
    ensures AllAccepted(b, store) ==> AllAccepted(a + b, store)
  {
    assert forall i :: 0 <= i < |a| ==> (a + b)[i] == a[i];
    assert forall i :: |a| <= i < |a + b| ==> (a + b)[i] == b[i - |a|];
  }

  lemma HaltsAppendNoCommands(a: seq<Event>, b: seq<Event>, store: Command -> Reply)
    requires HaltsAtFailure(a, store)
    requires forall i :: 0 <= i < |b| ==> !b[i].Run?
    ensures HaltsAtFailure(a + b, store)
    ensures AllAccepted(a, store) ==> AllAccepted(a + b, store)
  {
    assert forall i :: 0 <= i < |a| ==> (a + b)[i] == a[i];
    assert forall i :: |a| <= i < |a + b| ==> (a + b)[i] == b[i - |a|];
  }

  lemma MigrateHalts(tables: Tables, key: string, up: string, down: string, store: Command -> Reply)
    ensures var m := Migrate(tables, key, up, down, store);
            HaltsAtFailure(m.events, store) && (m.result.Ok? ==> AllAccepted(m.events, store))
  {
    MigrateStopsAtFailure(tables, key, up, down, store);
  }

  lemma WriteHalts(table: string, columns: seq<string>, rows: seq<Row>, store: Command -> Reply)
    ensures var w := WriteBatch(table, columns, rows, store);
            HaltsAtFailure(w.events, store) && (w.error.None? ==> AllAccepted(w.events, store))
  {
  }

  /** Commands stop at the first one the store rejects, and a successful
      request had every command accepted. */
  lemma StopsAtFirstFailure(tables: Tables, req: Request, rows: seq<Row>, store: Command -> Reply,
                            suggestions: seq<Suggestion>)
    ensures var h := Handle(tables, req, rows, store, suggestions);
            && HaltsAtFailure(h.events, store)
            && (h.response.Success? ==> AllAccepted(h.events, store))
  {
    var t := Transaction(tables, req, rows, store);
    TransactionEvents(tables, req, rows, store);
    var tail := if t.created then Sync(Lower(req.tableName), suggestions) else [];
    HaltsAppendNoCommands(t.events, tail, store);
  }

  /** A request starts with its first DDL statement, or with the truncate
      when `create_table` runs none. */
  lemma FirstEvent(tables: Tables, req: Request, rows: seq<Row>, store: Command -> Reply,
                   suggestions: seq<Suggestion>)
    ensures var m := Migrate(tables, Lower(req.tableName), req.sqlUp, req.sqlDown, store);
            var h := Handle(tables, req, rows, store, suggestions);
            && (|m.events| > 0 ==> h.events[0] == m.events[0])
            && (m.events == [] ==> h.events[0] == Run(Exec(TruncateCommand(Lower(req.tableName)))))
  {
    var key := Lower(req.tableName);
    var m := Migrate(tables, key, req.sqlUp, req.sqlDown, store);
    var t := Transaction(tables, req, rows, store);
    var tail := if t.created then Sync(key, suggestions) else [];
    assert Handle(tables, req, rows, store, suggestions).events == t.events + tail;
    if m.result.Err? {
      assert t.events == m.events + [Rollback];
    } else {
      var w := WriteBatch(key, req.columns, rows, store);
      assert t.events[..|m.events| + |w.events|] == m.events + w.events;
      if m.events == [] {
        assert (m.events + w.events)[0] == w.events[0];
      }
    }
  }

  /** Repeating a successful request with the same table and `up` runs no
      DDL and sends nothing to the metadata API: it truncates and reloads. */
  lemma RepeatRequestIsQuiet(tables: Tables, req: Request, rows: seq<Row>, req': Request, rows': seq<Row>,
                             store: Command -> Reply, store': Command -> Reply,
                             suggestions: seq<Suggestion>, suggestions': seq<Suggestion>)
    requires Handle(tables, req, rows, store, suggestions).response.Success?
    requires Lower(req'.tableName) == Lower(req.tableName) && req'.sqlUp == req.sqlUp
    ensures var h' := Handle(Handle(tables, req, rows, store, suggestions).tables, req', rows', store', suggestions');
            && h'.events[0] == Run(Exec(TruncateCommand(Lower(req.tableName))))
            && Sent(h'.events) == []
  {
    var key := Lower(req.tableName);
    var t1 := Handle(tables, req, rows, store, suggestions).tables;
    RepeatIsUnchanged(tables, key, req.sqlUp, req.sqlDown, req'.sqlDown);
    MigrateUnchanged(t1, key, req'.sqlUp, req'.sqlDown, store');
    FirstEvent(t1, req', rows', store', suggestions');
    MetadataRequestsIffCreated(t1, req', rows', store', suggestions');
  }

  /** A later request with a different `up` for a table the earlier request
      created or recreated first runs the earlier request's `down`; if it
      succeeds, the metadata requests are sent again. */
  lemma ChangedRequestTearsDownWithPreviousDown(tables: Tables, req: Request, rows: seq<Row>, req': Request,
                                                rows': seq<Row>, store: Command -> Reply, store': Command -> Reply,
                                                suggestions: seq<Suggestion>, suggestions': seq<Suggestion>)
    requires Handle(tables, req, rows, store, suggestions).response.Success?
    requires Decide(tables, Lower(req.tableName), req.sqlUp) != Unchanged
    requires Lower(req'.tableName) == Lower(req.tableName) && req'.sqlUp != req.sqlUp
    ensures var h' := Handle(Handle(tables, req, rows, store, suggestions).tables, req', rows', store', suggestions');
            && h'.events[0] == Run(Exec(req.sqlDown))
            && (h'.response.Success? ==> Sent(h'.events) == SyncQueries(Lower(req.tableName), suggestions'))
  {
    var key := Lower(req.tableName);
    var t1 := Handle(tables, req, rows, store, suggestions).tables;
    RecreateUsesPreviousDown(tables, key, req.sqlUp, req.sqlDown, req'.sqlUp);
    MigrateChanged(t1, key, req'.sqlUp, req'.sqlDown, store');
    FirstEvent(t1, req', rows', store', suggestions');
    MetadataRequestsIffCreated(t1, req', rows', store', suggestions');
  }
}

=== FILE: metadata_api.dfy ===
/** The requests the service sends to the query layer's metadata endpoint
    (`/v1/metadata`). Each constructor is one request `type`; the fields are
    its `args`. */
module MetadataApi {

  /** `using.foreign_key_constraint_on`: the local columns of an object
      relationship, or the remote table and columns of an array relationship. */
  datatype ForeignKey = OnColumns(columns: seq<string>) | OnRemote(table: string, columns: seq<string>)

  datatype Query =
    | TrackTable(source: string, schema: string, name: string)
      /** The permission granted is always `columns: "*"`, `filter: {}`,
          `allow_aggregations: true`; `columns` holds the first. */
    | CreateSelectPermission(source: string, table: string, role: string, columns: string, allowAggregations: bool)
    | SuggestRelationships(version: int, omitTracked: bool, tables: seq<string>)
    | CreateObjectRelationship(source: string, table: string, name: string, using: ForeignKey)
    | CreateArrayRelationship(source: string, table: string, name: string, using: ForeignKey)
    | Bulk(args: seq<Query>)

  /** The request's `type` field. */
  function TypeName(q: Query): string
  {
    match q
    case TrackTable(_, _, _) => "pg_track_table"
    case CreateSelectPermission(_, _, _, _, _) => "pg_create_select_permission"
    case SuggestRelationships(_, _, _) => "pg_suggest_relationships"
    case CreateObjectRelationship(_, _, _, _) => "pg_create_object_relationship"
    case CreateArrayRelationship(_, _, _, _) => "pg_create_array_relationship"
    case Bulk(_) => "bulk"
  }
}

=== FILE: naming.dfy ===
/** Relationship names follow the query layer's convention: an object
    relationship is named by the singular of the related table, an array
    relationship by its plural. Both are suffix rules on the letter 's'. */
module Naming {

  predicate EndsWithS(s: string) { |s| > 0 && s[|s| - 1] == 's' }

  /** `plural(s)`: the shortest extension of `s` that ends in 's'. */
  function Plural(s: string): (r: string)
    ensures EndsWithS(r)
    ensures s <= r && |r| <= |s| + 1
    ensures EndsWithS(s) ==> r == s
  {
    if EndsWithS(s) then s else s + "s"
  }

  /** `singular(s)`: drops one trailing 's', if there is one. */
  function Singular(s: string): (r: string)
    ensures r <= s
    ensures |s| - |r| == if EndsWithS(s) then 1 else 0
  {
    if !EndsWithS(s) then s else s[..|s| - 1]
  }

  /** No string that extends `s` and ends in 's' is shorter than `Plural(s)`. */
  lemma PluralIsShortest(s: string, t: string)
    requires s <= t && EndsWithS(t)
    ensures |Plural(s)| <= |t|
  {
    if !EndsWithS(s) {
      assert s != t;
    }
  }

  lemma PluralIdempotent(s: string)
    ensures Plural(Plural(s)) == Plural(s)
  {
  }

  lemma SingularIdentityWithoutS(s: string)
    requires !EndsWithS(s)
    ensures Singular(s) == s
  {
  }

  /** Singularising undoes pluralising a name that did not end in 's'. */
  lemma SingularOfPlural(s: string)
    requires !EndsWithS(s)
    ensures Singular(Plural(s)) == s
  {
    assert (s + "s")[..|s|] == s;
  }

  /** Pluralising undoes singularising, provided the stripped name does not
      itself end in 's'. */
  lemma PluralOfSingular(s: string)
    requires EndsWithS(s) && !EndsWithS(Singular(s))
    ensures Plural(Singular(s)) == s
  {
    assert s[..|s| - 1] + "s" == s;
  }

  /** Without the side condition the round trip fails: "address" becomes
      "addres", and pluralising that leaves it as it is. */
  lemma PluralOfSingularCounterexample()
    ensures EndsWithS("address") && Plural(Singular("address")) == "addres"
  {
    assert Singular("address") == "addres";
  }

  /** Pluralising, singularising and pluralising again gives the first plural
      back for every name not ending in 's'. */
  lemma PluralSingularPlural(s: string)
    requires !EndsWithS(s)
    ensures Plural(Singular(Plural(s))) == Plural(s)
  {
    SingularOfPlural(s);
  }
}

=== FILE: registry.dfy ===
/** The `Tables` registry: one row per known table, keyed by the lower-case
    table name, holding the creation (`up`) and teardown (`down`) statements
    last applied. The migration decision compares the stored `up` with the
    requested one by exact string equality. */
module Registry {

  import opened Text

  datatype SchemaRecord = SchemaRecord(up: string, down: string)

  type Tables = map<string, SchemaRecord>

  /** What a request does to the table's structure. `Recreate` carries the
      teardown statement that was stored with the current structure. */
  datatype Action = Create | Unchanged | Recreate(oldDown: string)

  /** The branch `create_table` takes for `key` and the requested `up`. */
  function Decide(tables: Tables, key: string, up: string): (a: Action)
    ensures a == Create <==> key !in tables
    ensures a == Unchanged <==> key in tables && tables[key].up == up
    ensures a.Recreate? ==> key in tables && a.oldDown == tables[key].down
  {
    if key !in tables then Create
    else if tables[key].up != up then Recreate(tables[key].down)
    else Unchanged
  }

  /** The DDL statements an action runs, in order. */
  function Ddl(a: Action, up: string): (stmts: seq<string>)
    ensures a == Unchanged <==> stmts == []
    ensures a != Unchanged ==> stmts[|stmts| - 1] == up
  {
    match a
    case Create => [up]
    case Recreate(oldDown) => [oldDown, up]
    case Unchanged => []
  }

  /** The registry once the action's statements have all been accepted. */
  function Migrated(tables: Tables, key: string, up: string, down: string): (t: Tables)
    ensures key in t && t[key].up == up
    ensures t.Keys == tables.Keys + {key}
    ensures forall k :: k in tables && k != key ==> t[k] == tables[k]
    ensures Decide(tables, key, up) == Unchanged ==> t == tables
    ensures Decide(tables, key, up) != Unchanged ==> t[key] == SchemaRecord(up, down)
  {
    if Decide(tables, key, up) == Unchanged then tables
    else tables[key := SchemaRecord(up, down)]
  }

  /** A second request with the same `up` for the same table is a no-op. */
  lemma RepeatIsUnchanged(tables: Tables, key: string, up: string, down: string, down': string)
    ensures Decide(Migrated(tables, key, up, down), key, up) == Unchanged
    ensures Migrated(Migrated(tables, key, up, down), key, up, down') == Migrated(tables, key, up, down)
  {
  }

  /** When `up` changes between two requests, and the first one created or
      recreated the table, the second tears the table down with the FIRST
      request's `down`, not with its own. (Had the first request left the
      table unchanged, the `down` stored before it is used.) */
  lemma RecreateUsesPreviousDown(tables: Tables, key: string, up1: string, down1: string, up2: string)
    requires Decide(tables, key, up1) != Unchanged
    requires up1 != up2
    ensures Decide(Migrated(tables, key, up1, down1), key, up2) == Recreate(down1)
    ensures Ddl(Decide(Migrated(tables, key, up1, down1), key, up2), up2) == [down1, up2]
  {
  }

  /** An unchanged `up` leaves the stored `down` in place even if the request
      brings a different one. */
  lemma UnchangedKeepsStoredDown(tables: Tables, key: string, up: string, down: string)
    requires key in tables && tables[key].up == up
    ensures Migrated(tables, key, up, down)[key].down == tables[key].down
  {
  }

  /** Every key of the registry is a lower-case name. */
  predicate CanonicalKeys(tables: Tables)
  {
    forall k :: k in tables ==> Lower(k) == k
  }

  /** Registering a lower-cased name keeps every key lower-case. */
  lemma MigratedKeepsCanonicalKeys(tables: Tables, name: string, up: string, down: string)
    requires CanonicalKeys(tables)
    ensures CanonicalKeys(Migrated(tables, Lower(name), up, down))
  {
    LowerIdempotent(name);
  }
}

=== FILE: relationships.dfy ===
/** Relationship inference: each foreign-key suggestion returned by
    `pg_suggest_relationships` becomes a request that creates the
    relationship. Object suggestions are named by the singular of the
    related table, array suggestions by its plural; suggestions of any
    other type are dropped. */
module Relationships {

  import opened Results
  import opened Naming
  import opened MetadataApi

  /** One end of a suggestion: `rel["from"]` (origin) or `rel["to"]` (target). */
  datatype Endpoint = Endpoint(table: string, columns: seq<string>)

  /** One entry of the reply's `relationships` list; `kind` is `rel["type"]`. */
  datatype Suggestion = Suggestion(kind: string, origin: Endpoint, target: Endpoint)

  predicate Relational(s: Suggestion) { s.kind == "object" || s.kind == "array" }

  predicate CreatesRelationship(q: Query)
  {
    q.CreateObjectRelationship? || q.CreateArrayRelationship?
  }

  /** The request one suggestion turns into, if any. */
  function QueryFor(s: Suggestion): (q: Option<Query>)
    ensures q.Some? <==> Relational(s)
    ensures q.Some? ==> CreatesRelationship(q.value)
    ensures q.Some? ==> q.value.source == "default" && q.value.table == s.origin.table
    ensures s.kind == "object" ==> q.value.CreateObjectRelationship? && q.value.name == Singular(s.target.table)
                                   && q.value.using == OnColumns(s.origin.columns)
    ensures s.kind == "array" ==> q.value.CreateArrayRelationship? && q.value.name == Plural(s.target.table)
                                  && q.value.using == OnRemote(s.target.table, s.target.columns)
  {
    if s.kind == "object" then
      Some(CreateObjectRelationship("default", s.origin.table, Singular(s.target.table),
                                    OnColumns(s.origin.columns)))
    else if s.kind == "array" then
      Some(CreateArrayRelationship("default", s.origin.table, Plural(s.target.table),
                                   OnRemote(s.target.table, s.target.columns)))
    else None
  }

  function OptionToSeq<T>(o: Option<T>): seq<T>
  {
    if o.Some? then [o.value] else []
  }

  /** The list `infer_relationships` returns for a reply. */
  function RelationshipQueries(suggestions: seq<Suggestion>): (qs: seq<Query>)
    ensures |qs| <= |suggestions|
    ensures forall i :: 0 <= i < |qs| ==> CreatesRelationship(qs[i]) && qs[i].source == "default"
    decreases |suggestions|
  {
    if |suggestions| == 0 then []
    else OptionToSeq(QueryFor(suggestions[0])) + RelationshipQueries(suggestions[1..])
  }

  /** The object and array suggestions, in reply order. */
  function RelationalOnly(suggestions: seq<Suggestion>): seq<Suggestion>
    decreases |suggestions|
  {
    if |suggestions| == 0 then []
    else if Relational(suggestions[0]) then [suggestions[0]] + RelationalOnly(suggestions[1..])
    else RelationalOnly(suggestions[1..])
  }

  /** One request per object or array suggestion, in reply order: the i-th
      request is the one the i-th such suggestion turns into. */
  lemma {:induction false} QueriesFollowSuggestions(suggestions: seq<Suggestion>)
    ensures |RelationshipQueries(suggestions)| == |RelationalOnly(suggestions)|
    ensures forall i :: 0 <= i < |RelationalOnly(suggestions)| ==>
              QueryFor(RelationalOnly(suggestions)[i]) == Some(RelationshipQueries(suggestions)[i])
    decreases |suggestions|
  {
    if |suggestions| > 0 {
      var rest := suggestions[1..];
      QueriesFollowSuggestions(rest);
      if Relational(suggestions[0]) {
        var q := QueryFor(suggestions[0]).value;
        assert RelationshipQueries(suggestions) == [q] + RelationshipQueries(rest);
        assert RelationalOnly(suggestions) == [suggestions[0]] + RelationalOnly(rest);
      } else {
        assert RelationshipQueries(suggestions) == RelationshipQueries(rest);
        assert RelationalOnly(suggestions) == RelationalOnly(rest);
      }
    }
  }

  /** A reply without object or array suggestions yields no request. */
  lemma {:induction false} OtherKindsDropped(suggestions: seq<Suggestion>)
    requires forall i :: 0 <= i < |suggestions| ==> !Relational(suggestions[i])
    ensures RelationshipQueries(suggestions) == []
    decreases |suggestions|
  {
    if |suggestions| > 0 {
      OtherKindsDropped(suggestions[1..]);
    }
  }

  /** The requests for a concatenated reply are those of its parts, in order. */
  lemma {:induction false} RelationshipQueriesAppend(a: seq<Suggestion>, b: seq<Suggestion>)
    ensures RelationshipQueries(a + b) == RelationshipQueries(a) + RelationshipQueries(b)
    decreases |a|
  {
    if |a| == 0 {
      assert a + b == b;
    } else {
      assert (a + b)[1..] == a[1..] + b;
      RelationshipQueriesAppend(a[1..], b);
    }
  }

  /** The loop of `infer_relationships` over the suggestions of the reply. */
  method CollectQueries(suggestions: seq<Suggestion>) returns (queries: seq<Query>)
    ensures queries == RelationshipQueries(suggestions)
  {
    queries := [];
    for i := 0 to |suggestions|
      invariant queries == RelationshipQueries(suggestions[..i])
    {
      var rel := suggestions[i];
      if rel.kind == "object" {
        queries := queries + [CreateObjectRelationship("default", rel.origin.table, Singular(rel.target.table),
                                                       OnColumns(rel.origin.columns))];
      } else if rel.kind == "array" {
        queries := queries + [CreateArrayRelationship("default", rel.origin.table, Plural(rel.target.table),
                                                      OnRemote(rel.target.table, rel.target.columns))];
      }
      assert suggestions[..i + 1] == suggestions[..i] + [rel];
      assert RelationshipQueries([rel]) == OptionToSeq(QueryFor(rel)) by {
        assert [rel][1..] == [];
      }
      RelationshipQueriesAppend(suggestions[..i], [rel]);
    }
    assert suggestions[..|suggestions|] == suggestions;
  }
}

=== FILE: results.dfy ===
/** Option and Result values for the error paths of the ingest service. */
module Results {

  datatype Option<+T> = None | Some(value: T)

  /** A step that either yields a value or raises; `error` is the text that
      `str(error)` gives for the exception. */
  datatype Result<+T> = Ok(value: T) | Err(error: string)
}

=== FILE: server.dfy ===
/** The service as the program runs it: one shared connection whose cursor
    executes statements inside an open transaction, the `Tables` registry
    read and written through that transaction, and the `/insert` handler
    that updates its `Metadata` argument in place. Every method is proved to
    do exactly what module Handler specifies. */
module Server {

  import opened Results
  import opened Text
  import opened Store
  import opened Registry
  import opened MetadataApi
  import opened Relationships
  import opened BatchWriter
  import opened Handler

  lemma AppendAssoc<T>(a: seq<T>, b: seq<T>, c: seq<T>)
    ensures (a + b) + c == a + (b + c)
  {
  }

  /** The request body; `create_table` lower-cases `tableName` in place and
      the handler replaces `columns` by their quoted forms. */
  class Metadata {
    var tableName: string
    var sqlUp: string
    var sqlDown: string
    var columns: seq<string>

    constructor (tableName: string, sqlUp: string, sqlDown: string, columns: seq<string>)
      ensures this.tableName == tableName && this.sqlUp == sqlUp
      ensures this.sqlDown == sqlDown && this.columns == columns
    {
      this.tableName := tableName;
      this.sqlUp := sqlUp;
      this.sqlDown := sqlDown;
      this.columns := columns;
    }

    function AsRequest(): Request
      reads this
    {
      Request(tableName, sqlUp, sqlDown, columns)
    }
  }

  class Service {
    /** The registry as the open transaction sees it. */
    var tables: Tables
    /** The registry as of the last commit. */
    var committed: Tables
    /** Everything the service has done, in order. */
    var trace: seq<Event>

    /** Every registry key is lower-case. The handler only ever writes
        lower-cased names, so a registry that starts this way stays so. */
    ghost predicate Valid()
      reads this
    {
      CanonicalKeys(tables) && CanonicalKeys(committed)
    }

    /** No transaction holds uncommitted changes. */
    ghost predicate Idle()
      reads this
    {
      tables == committed
    }

    constructor (registry: Tables)
      ensures Idle()
      ensures CanonicalKeys(registry) ==> Valid()
      ensures tables == registry && trace == []
    {
      tables := registry;
      committed := registry;
      trace := [];
    }

    /** `cursor.execute` / `cursor.executemany` */
    method RunCommand(cmd: Command, store: Command -> Reply) returns (reply: Reply)
      modifies this`trace
      ensures trace == old(trace) + [Run(cmd)]
      ensures reply == store(cmd)
    {
      trace := trace + [Run(cmd)];
      reply := store(cmd);
    }

    /** `connection.commit()` */
    method CommitTransaction()
      modifies this`committed, this`trace
      ensures committed == tables
      ensures trace == old(trace) + [Commit]
    {
      committed := tables;
      trace := trace + [Commit];
    }

    /** `connection.rollback()` */
    method RollbackTransaction()
      modifies this`tables, this`trace
      ensures tables == committed
      ensures trace == old(trace) + [Rollback]
    {
      tables := committed;
      trace := trace + [Rollback];
    }

    /** `send_hasura_api_query` */
    method SendQuery(q: Query)
      modifies this`trace
      ensures trace == old(trace) + [Send(q)]
    {
      trace := trace + [Send(q)];
    }

    /** `create_table` */
    method CreateTable(m: Metadata, store: Command -> Reply) returns (r: Result<bool>)
      modifies this`tables, this`trace, m`tableName
      ensures old(Valid()) ==> Valid()
      ensures m.tableName == Lower(old(m.tableName))
      ensures var mig := Migrate(old(tables), m.tableName, m.sqlUp, m.sqlDown, store);
              && trace == old(trace) + mig.events
              && r == mig.result
              && tables == mig.tables
      ensures r.Ok? ==> m.tableName in tables && tables[m.tableName].up == m.sqlUp
      ensures forall k :: k in old(tables) && k != m.tableName ==> k in tables && tables[k] == old(tables)[k]
    {
      if Valid() {
        MigratedKeepsCanonicalKeys(tables, m.tableName, m.sqlUp, m.sqlDown);
      }
      m.tableName := Lower(m.tableName);
      var key := m.tableName;
      if key !in tables {
        MigrateAbsent(tables, key, m.sqlUp, m.sqlDown, store);
        var reply := RunCommand(Exec(m.sqlUp), store);
        if reply.Failed? {
          return Err(reply.message);
        }
        tables := tables[key := SchemaRecord(m.sqlUp, m.sqlDown)];
        return Ok(true);
      } else if tables[key].up != m.sqlUp {
        MigrateChanged(tables, key, m.sqlUp, m.sqlDown, store);
        var reply := RunCommand(Exec(tables[key].down), store);
        if reply.Failed? {
          return Err(reply.message);
        }
        reply := RunCommand(Exec(m.sqlUp), store);
        if reply.Failed? {
          return Err(reply.message);
        }
        tables := tables[key := SchemaRecord(m.sqlUp, m.sqlDown)];
        return Ok(true);
      }
      MigrateUnchanged(tables, key, m.sqlUp, m.sqlDown, store);
      return Ok(false);
    }

    /** `infer_relationships`: asks the metadata API for suggestions (whose
        reply is `suggestions`) and builds one request per relationship. */
    method InferRelationships(tableName: string, suggestions: seq<Suggestion>) returns (queries: seq<Query>)
      modifies this`trace
      ensures trace == old(trace) + [Send(SuggestRelationships(1, true, [tableName]))]
      ensures queries == RelationshipQueries(suggestions)
    {
      SendQuery(SuggestRelationships(1, true, [tableName]));
      queries := CollectQueries(suggestions);
    }

    /** The second `try` block of the handler: truncate, project the rows,
        quote the columns and run the INSERT once per row. */
    method LoadRows(m: Metadata, payload: seq<Row>, store: Command -> Reply) returns (error: Option<string>)
      modifies this`trace, m`columns
      ensures var w := WriteBatch(m.tableName, old(m.columns), payload, store);
              trace == old(trace) + w.events && error == w.error
      ensures error.None? ==> m.columns == QuoteAll(old(m.columns))
      ensures m.columns == if store(Exec(TruncateCommand(m.tableName))) == Done && ProjectRows(payload, old(m.columns)).Ok?
                           then QuoteAll(old(m.columns)) else old(m.columns)
    {
      var reply := RunCommand(Exec(TruncateCommand(m.tableName)), store);
      if reply.Failed? {
        return Some(reply.message);
      }
      var values := ProjectRows(payload, m.columns);
      if values.Err? {
        return Some(values.error);
      }
      m.columns := QuoteAll(m.columns);
      var cmd := InsertCommand(m.tableName, m.columns);
      reply := RunCommand(ExecMany(cmd, values.value), store);
      if reply.Failed? {
        return Some(reply.message);
      }
      return None;
    }

    /** The metadata requests after the commit of a created table. */
    method SyncMetadata(tableName: string, suggestions: seq<Suggestion>)
      modifies this`trace
      ensures trace == old(trace) + Sync(Lower(tableName), suggestions)
    {
      SendQuery(TrackTable("default", "public", Lower(tableName)));
      SendQuery(CreateSelectPermission("default", Lower(tableName), "anonymous", "*", true));
      var queries := InferRelationships(Lower(tableName), suggestions);
      SendQuery(Bulk(queries));
    }

    /** The two `try` blocks of the handler and the commit. */
    method Transact(m: Metadata, payload: seq<Row>, store: Command -> Reply) returns (response: Response, created: bool)
      requires Idle()
      modifies this, m`tableName, m`columns
      ensures Idle()
      ensures old(Valid()) ==> Valid()
      ensures var t := Transaction(old(tables), old(m.AsRequest()), payload, store);
              && trace == old(trace) + t.events
              && response == t.response
              && tables == t.tables
              && created == t.created
      ensures m.tableName == Lower(old(m.tableName))
      ensures var key := Lower(old(m.tableName));
              m.columns == if && Migrate(old(tables), key, old(m.sqlUp), old(m.sqlDown), store).result.Ok?
                              && store(Exec(TruncateCommand(key))) == Done
                              && ProjectRows(payload, old(m.columns)).Ok?
                           then QuoteAll(old(m.columns)) else old(m.columns)
    {
      ghost var req := m.AsRequest();
      ghost var key := Lower(req.tableName);
      ghost var mig := Migrate(tables, key, req.sqlUp, req.sqlDown, store);
      ghost var w := WriteBatch(key, req.columns, payload, store);
      ghost var t0 := trace;
      ghost var t := Transaction(tables, req, payload, store);
      var result := CreateTable(m, store);
      if result.Err? {
        RollbackTransaction();
        assert t.events == mig.events + [Rollback];
        AppendAssoc(t0, mig.events, [Rollback]);
        return Error(result.error), false;
      }
      var error := LoadRows(m, payload, store);
      if error.Some? {
        RollbackTransaction();
        assert t.events == mig.events + w.events + [Rollback];
        AppendAssoc(t0, mig.events, w.events);
        AppendAssoc(t0, mig.events + w.events, [Rollback]);
        return Error(error.value), false;
      }
      CommitTransaction();
      assert t.events == mig.events + w.events + [Commit];
      AppendAssoc(t0, mig.events, w.events);
      AppendAssoc(t0, mig.events + w.events, [Commit]);
      return Success, result.value;
    }

    /** The `/insert` handler. */
    method Insert(m: Metadata, payload: seq<Row>, store: Command -> Reply, suggestions: seq<Suggestion>)
      returns (response: Response)
      requires Idle()
      modifies this, m`tableName, m`columns
      ensures Idle()
      ensures old(Valid()) ==> Valid()
      ensures var h := Handle(old(tables), old(m.AsRequest()), payload, store, suggestions);
              && trace == old(trace) + h.events
              && response == h.response
              && tables == h.tables
      ensures m.tableName == Lower(old(m.tableName))
      ensures response.Success? ==> m.columns == QuoteAll(old(m.columns))
      ensures var key := Lower(old(m.tableName));
              m.columns == if && Migrate(old(tables), key, old(m.sqlUp), old(m.sqlDown), store).result.Ok?
                              && store(Exec(TruncateCommand(key))) == Done
                              && ProjectRows(payload, old(m.columns)).Ok?
                           then QuoteAll(old(m.columns)) else old(m.columns)
    {
      ghost var req := m.AsRequest();
      ghost var t0 := trace;
      var created;
      response, created := Transact(m, payload, store);
      ghost var t := Transaction(old(tables), req, payload, store);
      if created {
        LowerIdempotent(req.tableName);
        SyncMetadata(m.tableName, suggestions);
        AppendAssoc(t0, t.events, Sync(Lower(req.tableName), suggestions));
      } else {
        assert t.events + [] == t.events;
      }
    }
  }
}

=== FILE: store.dfy ===
/** The relational store as the service sees it through its cursor: a
    statement is sent, and the store either accepts it or raises. What a
    statement does to the data is not modelled; the store's answer to each
    command is an input. */
module Store {

  /** A JSON value of a payload row, bound to a `%s` placeholder. */
  datatype Value = Null | Bool(b: bool) | Number(n: int) | Text(s: string)

  /** `cursor.execute(sql)` and `cursor.executemany(sql, rows)`. */
  datatype Command = Exec(sql: string) | ExecMany(sql: string, rows: seq<seq<Value>>)

  /** The store's answer to a command; `Failed` carries the text of the error. */
  datatype Reply = Done | Failed(message: string)

  /** The index of the first command the store rejects, or `|cmds|` when it
      accepts them all: commands after a rejected one are never sent. */
  function FirstFailure(cmds: seq<Command>, store: Command -> Reply): (i: nat)
    ensures i <= |cmds|
    ensures forall j :: 0 <= j < i ==> store(cmds[j]) == Done
    ensures i < |cmds| ==> store(cmds[i]).Failed?
    decreases |cmds|
  {
    if |cmds| == 0 then 0
    else if store(cmds[0]).Failed? then 0
    else 1 + FirstFailure(cmds[1..], store)
  }
}

=== FILE: text.dfy ===
/** The string operations the service relies on: case folding of table
    names, `str.join`, and counting characters in built statement text. */
module Text {

  predicate IsUpper(c: char) { 'A' <= c <= 'Z' }

  /** ASCII case folding of one character. */
  function LowerChar(c: char): (d: char)
    ensures !IsUpper(d)
    ensures !IsUpper(c) ==> d == c
    ensures IsUpper(c) ==> 'a' <= d <= 'z' && d as int - 'a' as int == c as int - 'A' as int
  {
    if IsUpper(c) then (c as int - 'A' as int + 'a' as int) as char else c
  }

  /** `s.lower()`, restricted to ASCII letters. */
  function Lower(s: string): (r: string)
    ensures |r| == |s|
    ensures forall i :: 0 <= i < |s| ==> r[i] == LowerChar(s[i])
    ensures forall i :: 0 <= i < |r| ==> !IsUpper(r[i])
  {
    seq(|s|, i requires 0 <= i < |s| => LowerChar(s[i]))
  }

  /** Folding a folded name changes nothing: the name stored in the registry
      and the one sent to the metadata API are the same string. */
  lemma LowerIdempotent(s: string)
    ensures Lower(Lower(s)) == Lower(s)
  {
  }

  /** `sep.join(parts)` */
  function Join(sep: string, parts: seq<string>): string
    decreases |parts|
  {
    if |parts| == 0 then ""
    else if |parts| == 1 then parts[0]
    else parts[0] + sep + Join(sep, parts[1..])
  }

  /** The number of occurrences of `c` in `s`. */
  function Count(c: char, s: string): nat
    decreases |s|
  {
    if |s| == 0 then 0 else (if s[0] == c then 1 else 0) + Count(c, s[1..])
  }

  lemma {:induction false} CountAppend(c: char, a: string, b: string)
    ensures Count(c, a + b) == Count(c, a) + Count(c, b)
    decreases |a|
  {
    if |a| == 0 {
      assert a + b == b;
    } else {
      assert (a + b)[1..] == a[1..] + b;
      CountAppend(c, a[1..], b);
    }
  }

  /** Joining parts that each hold `k` copies of `c` with a separator that
      holds none gives `k` copies per part. */
  lemma {:induction false} CountJoin(c: char, sep: string, parts: seq<string>, k: nat)
    requires Count(c, sep) == 0
    requires forall i :: 0 <= i < |parts| ==> Count(c, parts[i]) == k
    ensures Count(c, Join(sep, parts)) == k * |parts|
    decreases |parts|
  {
    if |parts| > 1 {
      var rest := Join(sep, parts[1..]);
      CountAppend(c, parts[0] + sep, rest);
      CountAppend(c, parts[0], sep);
      CountJoin(c, sep, parts[1..], k);
      MulStep(k, |parts|);
    }
  }

  lemma MulStep(k: nat, n: nat)
    requires n >= 1
    ensures k * n == k + k * (n - 1)
  {
  }
}
